=== FILE: README.md ===
# Library loans and user list, modelled in Dafny

This project models two parts of a small library system.

**Loan service (Java).** A user borrows a book by ISBN. The request carries a
category code: 1 for a member (*afiliado*), 2 for an employee (*empleado*) or
3 for a guest (*invitado*). The service handles it in five steps:

1. It validates the code.
2. It refuses a guest who already holds a loan.
3. It looks the book up in the catalog.
4. It computes a due date 10, 8 or 7 business days later, with Saturdays and
   Sundays skipped.
5. It stores the loan and answers with the loan's id and the due date as
   `dd/MM/yyyy`.

A second use case returns a stored loan by id.

**Users screen (Angular).** A search pipe filters users by first name. The
list component merges locally created users with users from the API, and it
paginates the result six users per page.

Dates are epoch days (`Calendar`). The calendar conversion is proved to be a
bijection, and the `dd/MM/yyyy` rendering is proved to be readable back for
years 1 to 9999 (`DateFormat`).

The two stores are immutable values:

- The book catalog is a map keyed by ISBN (`Catalog`).
- The loan store is a map keyed by the assigned id (`LoanStore`).

Each store keeps an id counter and has a validity invariant. The use cases
take the store as an argument and return the new store, so "nothing is
written when a request fails" is a postcondition. The screen's fields form
one `ListState` value. The predicate `UserList.Consistent` says the visible
page, the page count and the page number agree with the data, and every
operation preserves it.

Modules, in dependency order:

- `Results`
- `Calendar`
- `UserTypes`
- `Domain`
- `Catalog`
- `LoanStore`
- `DueDates`
- `DateFormat`
- `Validator`
- `LendBook`
- `QueryLoan`
- `UserFilter`
- `UserList`

The due-date rule follows the calculator's loop, not the comment on
`ResultadoPrestar.fechaMaximaDevolucion`
(6451ec5e-78e5-4dcd-8141-d8f13abcdc5d/biblioteca/src/main/java/com/ceiba/biblioteca/application/dto/ResultadoPrestar.java:62).
That comment says a member who borrows on a Monday must return the book by
the following Monday. The loop counts 10 business days, which gives the
Monday two weeks later. `DueDates.MondayAfiliadoDueInTwoWeeks` proves this
for every Monday.

The method named `obtenerOCrearLibro` ("get or create the book") only looks
the book up. A missing book is an error, and nothing is created.
`LendBook.FindBook` follows the code.

## Model

Source paths are relative to the repository root.

| member | source | states |
|---|---|---|
| UserTypes.FromCode | 6451ec5e-78e5-4dcd-8141-d8f13abcdc5d/biblioteca/src/main/java/com/ceiba/biblioteca/domain/model/TipoUsuario.java:91-102 | A null code fails as null. Every code other than 1, 2 or 3 fails and names the code. Decoding succeeds exactly for 1, 2 and 3, and the decoded category carries the given code. |
| UserTypes.CodeRoundTrip | 6451ec5e-78e5-4dcd-8141-d8f13abcdc5d/biblioteca/src/main/java/com/ceiba/biblioteca/domain/model/TipoUsuario.java:25-37 | Decoding any category's code gives back that category. |
| UserTypes.CodeInjective | 6451ec5e-78e5-4dcd-8141-d8f13abcdc5d/biblioteca/src/main/java/com/ceiba/biblioteca/domain/model/TipoUsuario.java:25-37 | Two categories have the same code only if they are the same category. |
| UserTypes.RegistryTable | 6451ec5e-78e5-4dcd-8141-d8f13abcdc5d/biblioteca/src/main/java/com/ceiba/biblioteca/domain/model/TipoUsuario.java:25-37 | Codes 1, 2 and 3 decode to member, employee and guest. Their loans last 10, 8 and 7 business days. |
| UserTypes.GuestIsCodeThree | 6451ec5e-78e5-4dcd-8141-d8f13abcdc5d/biblioteca/src/main/java/com/ceiba/biblioteca/domain/model/TipoUsuario.java:112-114 | A category is the guest category exactly when its code is 3. |
| Calendar.DayOfWeekNext | 6451ec5e-78e5-4dcd-8141-d8f13abcdc5d/biblioteca/src/main/java/com/ceiba/biblioteca/domain/service/CalculadorFechaDevolucion.java:70-71 | Stepping one day forward moves the weekday one step around the Monday-to-Sunday cycle. |
| Calendar.FromEpochDay | 6451ec5e-78e5-4dcd-8141-d8f13abcdc5d/biblioteca/src/main/java/com/ceiba/biblioteca/application/usecase/PrestarLibroUseCaseImpl.java:122 | Every epoch day maps to a valid calendar date, and that date maps back to the same epoch day. |
| Calendar.CivilRoundTrip | 6451ec5e-78e5-4dcd-8141-d8f13abcdc5d/biblioteca/src/main/java/com/ceiba/biblioteca/application/usecase/PrestarLibroUseCaseImpl.java:122 | Every valid calendar date maps to an epoch day and back to the same date, so the conversion is a bijection. |
| Calendar.ToEpochDayInjective | 6451ec5e-78e5-4dcd-8141-d8f13abcdc5d/biblioteca/src/main/java/com/ceiba/biblioteca/application/usecase/ConsultarPrestamoUseCaseImpl.java:73 | Two valid dates have the same epoch day only if they are equal. |
| DueDates.AddDaysSkippingWeekends | 6451ec5e-78e5-4dcd-8141-d8f13abcdc5d/biblioteca/src/main/java/com/ceiba/biblioteca/domain/service/CalculadorFechaDevolucion.java:66-76 | The loop stops on the earliest day by which `days` weekdays have passed after `date`. With a count of zero or less it returns `date`. With a positive count the result is a weekday after `date`. |
| DueDates.AddBusinessDays | 6451ec5e-78e5-4dcd-8141-d8f13abcdc5d/biblioteca/src/main/java/com/ceiba/biblioteca/domain/service/CalculadorFechaDevolucion.java:66-76 | The same walk written as a recursion. Zero or negative counts return the base date. Otherwise the result is the earliest day with exactly `n` weekdays after the base. |
| DueDates.DueDateFor | 6451ec5e-78e5-4dcd-8141-d8f13abcdc5d/biblioteca/src/main/java/com/ceiba/biblioteca/domain/service/CalculadorFechaDevolucion.java:51-53 | The due date for category `t` lies exactly as many business days after the base as `t`'s loan length. It is later than the base and is a weekday. |
| DueDates.DueDateUnique | 6451ec5e-78e5-4dcd-8141-d8f13abcdc5d/biblioteca/src/main/java/com/ceiba/biblioteca/domain/service/CalculadorFechaDevolucion.java:66-76 | For a given base and count, at most one day is the due date. |
| DueDates.DueDateIsBusinessDay | 6451ec5e-78e5-4dcd-8141-d8f13abcdc5d/biblioteca/src/main/java/com/ceiba/biblioteca/domain/service/CalculadorFechaDevolucion.java:69-74 | A due date for a positive count lies after the base and never falls on a Saturday or Sunday. |
| DueDates.WeekHasFiveBusinessDays | 6451ec5e-78e5-4dcd-8141-d8f13abcdc5d/biblioteca/src/main/java/com/ceiba/biblioteca/domain/service/CalculadorFechaDevolucion.java:71 | Any seven consecutive days contain exactly five days that the loop counts. |
| DueDates.MondayAfiliadoDueInTwoWeeks | 6451ec5e-78e5-4dcd-8141-d8f13abcdc5d/biblioteca/src/main/java/com/ceiba/biblioteca/application/dto/ResultadoPrestar.java:62 | A member who borrows on a Monday is due on the Monday 14 days later, not on the following Monday. |
| DueDates.FridayInvitadoDueElevenDaysLater | 6451ec5e-78e5-4dcd-8141-d8f13abcdc5d/biblioteca/src/main/java/com/ceiba/biblioteca/domain/service/CalculadorFechaDevolucion.java:66-76 | A guest who borrows on a Friday is due 11 days later, on a Tuesday. |
| DateFormat.FormatRoundTrip | 6451ec5e-78e5-4dcd-8141-d8f13abcdc5d/biblioteca/src/main/java/com/ceiba/biblioteca/application/usecase/PrestarLibroUseCaseImpl.java:39 | For years 1 to 9999 the `dd/MM/yyyy` text is ten characters long with slashes at positions 2 and 5. Reading it back gives the same date. |
| DateFormat.FormatDayInjective | 6451ec5e-78e5-4dcd-8141-d8f13abcdc5d/biblioteca/src/main/java/com/ceiba/biblioteca/application/usecase/ConsultarPrestamoUseCaseImpl.java:33 | Within years 1 to 9999, two days render to the same text only if they are the same day. |
| Domain.CreateLoan | 6451ec5e-78e5-4dcd-8141-d8f13abcdc5d/biblioteca/src/main/java/com/ceiba/biblioteca/domain/model/Prestamo.java:80-89 | A created loan has no id yet, is dated today, and copies the due date, user, category and book it was given. |
| Catalog.FindByIsbn | 6451ec5e-78e5-4dcd-8141-d8f13abcdc5d/biblioteca/src/main/java/com/ceiba/biblioteca/domain/port/out/LibroRepositoryPort.java:48-67 | The lookup finds a book exactly when one with that ISBN is catalogued, and the book found carries that ISBN. |
| Catalog.Save | 6451ec5e-78e5-4dcd-8141-d8f13abcdc5d/biblioteca/src/main/java/com/ceiba/biblioteca/domain/port/out/LibroRepositoryPort.java:29-46 | Saving fails exactly when a different entry holds the same ISBN. A book whose id is stored updates that record: it keeps its id, and no other entry holds that id afterwards. Any other book gets a fresh id. The book can then be found by its ISBN. Every other entry is kept unchanged, and the catalog stays valid. |
| Catalog.SaveMovesUpdatedBook | 6451ec5e-78e5-4dcd-8141-d8f13abcdc5d/biblioteca/src/main/java/com/ceiba/biblioteca/domain/port/out/LibroRepositoryPort.java:29-46 | Saving a stored book under a new, unused ISBN moves it: the old ISBN finds nothing, and the new ISBN finds the book with its id unchanged. |
| Catalog.IsbnIsUniqueKey | 6451ec5e-78e5-4dcd-8141-d8f13abcdc5d/biblioteca/src/main/java/com/ceiba/biblioteca/domain/port/out/LibroRepositoryPort.java:43-46 | After a book is saved, saving a new book with the same ISBN fails as a duplicate. |
| LoanStore.FindById | 6451ec5e-78e5-4dcd-8141-d8f13abcdc5d/biblioteca/src/main/java/com/ceiba/biblioteca/domain/port/out/PrestamoRepositoryPort.java:50-62 | A loan is found exactly when the id is stored. The loan found is the stored record itself, and it carries that id. |
| LoanStore.CountByUser | 6451ec5e-78e5-4dcd-8141-d8f13abcdc5d/biblioteca/src/main/java/com/ceiba/biblioteca/domain/port/out/PrestamoRepositoryPort.java:79-92 | The count is zero exactly when no stored loan belongs to the user. |
| LoanStore.FindByUser | 6451ec5e-78e5-4dcd-8141-d8f13abcdc5d/biblioteca/src/main/java/com/ceiba/biblioteca/domain/port/out/PrestamoRepositoryPort.java:64-77 | The lookup returns nothing when the user has no loans and fails when they have several. With exactly one loan it returns a stored loan of that user. |
| LoanStore.Save | 6451ec5e-78e5-4dcd-8141-d8f13abcdc5d/biblioteca/src/main/java/com/ceiba/biblioteca/domain/port/out/PrestamoRepositoryPort.java:31-48 | Saving fails exactly when the loan's book is not catalogued. A loan whose id is stored updates that record. A loan without an id, or with an id that is not stored, goes under a fresh id. Only that one key changes, and the saved loan links the catalogued book. |
| LoanStore.SaveNewCounts | 6451ec5e-78e5-4dcd-8141-d8f13abcdc5d/biblioteca/src/main/java/com/ceiba/biblioteca/domain/port/out/PrestamoRepositoryPort.java:48-92 | Saving a new loan raises its borrower's count by one and leaves every other user's count unchanged. |
| LoanStore.SaveCreatedLoan | 6451ec5e-78e5-4dcd-8141-d8f13abcdc5d/biblioteca/src/main/java/com/ceiba/biblioteca/domain/model/Prestamo.java:80-89 | Saving a freshly created loan whose book is catalogued always succeeds as an insert: it gets an id not yet stored, the store grows by one, and the dates, user and category are kept. |
| LoanStore.SaveThenFind | 6451ec5e-78e5-4dcd-8141-d8f13abcdc5d/biblioteca/src/main/java/com/ceiba/biblioteca/domain/port/out/PrestamoRepositoryPort.java:48-62 | Looking up the id a save assigned returns the loan as saved. |
| Validator.ValidateUserType | 6451ec5e-78e5-4dcd-8141-d8f13abcdc5d/biblioteca/src/main/java/com/ceiba/biblioteca/domain/service/ValidadorPrestamo.java:50-56 | Validation passes exactly for codes 1, 2 and 3. Every other code, and a missing code, fails with "user type not allowed". |
| Validator.ValidateGuest | 6451ec5e-78e5-4dcd-8141-d8f13abcdc5d/biblioteca/src/main/java/com/ceiba/biblioteca/domain/service/ValidadorPrestamo.java:73-80 | Members and employees always pass. A guest passes exactly when they hold no stored loan, and a refused guest's error names them. |
| Validator.NonGuestIgnoresStore | 6451ec5e-78e5-4dcd-8141-d8f13abcdc5d/biblioteca/src/main/java/com/ceiba/biblioteca/domain/service/ValidadorPrestamo.java:73-80 | For members and employees the outcome is the same for every store. |
| LendBook.FindBook | 6451ec5e-78e5-4dcd-8141-d8f13abcdc5d/biblioteca/src/main/java/com/ceiba/biblioteca/application/usecase/PrestarLibroUseCaseImpl.java:138-141 | The lookup succeeds exactly when the ISBN is catalogued. A missing book fails with its ISBN, and nothing is created. |
| LendBook.Lend | 6451ec5e-78e5-4dcd-8141-d8f13abcdc5d/biblioteca/src/main/java/com/ceiba/biblioteca/application/usecase/PrestarLibroUseCaseImpl.java:102-124 | A bad code fails first, then the guest cap, then a missing book. A failure leaves the store unchanged. Success happens exactly when every check passes. It adds exactly one loan under a fresh id, due the category's number of business days after today, and the receipt's due date is that day's text. |
| LendBook.GuestSecondLoanRefused | 6451ec5e-78e5-4dcd-8141-d8f13abcdc5d/biblioteca/src/main/java/com/ceiba/biblioteca/application/usecase/PrestarLibroUseCaseImpl.java:103-106 | A guest who has just borrowed is refused a second loan for any book on any day. |
| QueryLoan.Consult | 6451ec5e-78e5-4dcd-8141-d8f13abcdc5d/biblioteca/src/main/java/com/ceiba/biblioteca/application/usecase/ConsultarPrestamoUseCaseImpl.java:63-77 | The query succeeds exactly for stored ids, and for any other id it fails with an error naming the id. On success it returns the loan's id, ISBN, title, due date as text, user, and a code that decodes back to the loan's category. |
| QueryLoan.LendThenConsult | 6451ec5e-78e5-4dcd-8141-d8f13abcdc5d/biblioteca/src/main/java/com/ceiba/biblioteca/application/usecase/ConsultarPrestamoUseCaseImpl.java:63-77 | Querying the loan a successful lend created returns the receipt's id and due date, plus the requested ISBN, user and code and the catalog's title. |
| UserFilter.IncludesIsOccurs | ca207cbb-f6fb-421c-b06e-d38f532c721f/src/app/shared/pipes/filter-user-by-name/filter-user-by-name.pipe.ts:13 | The left-to-right `includes` search succeeds exactly when the term occurs somewhere in the text. |
| UserFilter.Filter | ca207cbb-f6fb-421c-b06e-d38f532c721f/src/app/shared/pipes/filter-user-by-name/filter-user-by-name.pipe.ts:12-14 | `filter` keeps an ordered subsequence of its input. Every kept element satisfies the predicate, and each satisfying element keeps all of its occurrences. |
| UserFilter.SearchFilter | ca207cbb-f6fb-421c-b06e-d38f532c721f/src/app/feature/users/list-users/list-users.component.ts:99-105 | A term shorter than three characters keeps the list unchanged. A longer term keeps an ordered sublist: every kept user's lower-cased first name contains the lower-cased term, and each matching user appears as many times as in the input. |
| UserFilter.Transform | ca207cbb-f6fb-421c-b06e-d38f532c721f/src/app/shared/pipes/filter-user-by-name/filter-user-by-name.pipe.ts:8-15 | A missing list stays missing. A missing or short term returns the list unchanged. Otherwise the result is an ordered sublist in which every user matches the term, and each matching user appears as many times as in the input. |
| UserList.PageCount | ca207cbb-f6fb-421c-b06e-d38f532c721f/src/app/feature/users/list-users/list-users.component.ts:192 | The page count is the smallest number of six-user pages that holds the list. |
| UserList.PageContents | ca207cbb-f6fb-421c-b06e-d38f532c721f/src/app/feature/users/list-users/list-users.component.ts:107-108 | A page holds at most six users, namely the ones at its positions of the list. It is full unless it is the last page. |
| UserList.EveryUserHasAPage | ca207cbb-f6fb-421c-b06e-d38f532c721f/src/app/feature/users/list-users/list-users.component.ts:107-109 | The user at position `j` appears at position `j mod 6` of page `j div 6 + 1`, and that page lies within the page count. |
| UserList.ShowPage | ca207cbb-f6fb-421c-b06e-d38f532c721f/src/app/feature/users/list-users/list-users.component.ts:97-110 | Showing any existing page makes the screen consistent. The page holds at most six users, all from the list, and neither the list nor the term changes. |
| UserList.NextPage | ca207cbb-f6fb-421c-b06e-d38f532c721f/src/app/feature/users/list-users/list-users.component.ts:112-114 | Moves one page forward when a later page exists, and otherwise changes nothing. Consistency is preserved. |
| UserList.PreviousPage | ca207cbb-f6fb-421c-b06e-d38f532c721f/src/app/feature/users/list-users/list-users.component.ts:116-118 | Moves one page back unless on page 1, and otherwise changes nothing. Consistency is preserved. |
| UserList.NextThenPrevious | ca207cbb-f6fb-421c-b06e-d38f532c721f/src/app/feature/users/list-users/list-users.component.ts:112-118 | On a consistent screen with a later page, going forward and then back restores the screen. |
| UserList.PageNumbers | ca207cbb-f6fb-421c-b06e-d38f532c721f/src/app/feature/users/list-users/list-users.component.ts:120-124 | The page links are consecutive ascending page numbers, at most five. They contain exactly the pages from two before to two after the current one, cut to the existing pages. On a consistent screen with at least one page they include the current page; with no pages they are empty. |
| UserList.FilterAndPaginate | ca207cbb-f6fb-421c-b06e-d38f532c721f/src/app/feature/users/list-users/list-users.component.ts:183-196 | Recomputes the pages for the current search. The current page is kept while it exists. Otherwise the screen moves to the last page, or to page 1 when nothing matches. The result is consistent. |
| UserList.SearchInput | ca207cbb-f6fb-421c-b06e-d38f532c721f/src/app/feature/users/list-users/list-users.component.ts:177-181 | A new search term applies at once. The screen stays consistent and shows only users from the list. |
| UserList.DeleteSucceeded | ca207cbb-f6fb-421c-b06e-d38f532c721f/src/app/feature/users/list-users/list-users.component.ts:140-146 | After a confirmed delete the list is an ordered sublist holding every user with another id as many times as before, and no user with the deleted id. The screen is consistent again. |
| UserList.FindIndex | ca207cbb-f6fb-421c-b06e-d38f532c721f/src/app/feature/users/list-users/list-users.component.ts:75 | `findIndex` returns the first position holding that id, or -1 when the id is absent. |
| UserList.FirstOccurrences | ca207cbb-f6fb-421c-b06e-d38f532c721f/src/app/feature/users/list-users/list-users.component.ts:74-76 | The filter keeps, as an ordered sublist, exactly the users that are the first with their id, so no id repeats. |
| UserList.FirstOccurrencesOrdered | ca207cbb-f6fb-421c-b06e-d38f532c721f/src/app/feature/users/list-users/list-users.component.ts:74-76 | The users the filter keeps are in increasing order of the first position of their id in the input. |
| UserList.Merge | ca207cbb-f6fb-421c-b06e-d38f532c721f/src/app/feature/users/list-users/list-users.component.ts:72-77 | The merged list is an ordered sublist of the local users followed by the API users. Users are ordered by the first position of their id there, so local users come first. No id repeats, every id from either source is present, and each merged user is the first user with its id. |
| UserList.MergePrefersLocal | ca207cbb-f6fb-421c-b06e-d38f532c721f/src/app/feature/users/list-users/list-users.component.ts:72-77 | A locally created user wins over an API user with the same id: the merged entry for that id is the first local user with it. |
| UserList.FinalizeUsers | ca207cbb-f6fb-421c-b06e-d38f532c721f/src/app/feature/users/list-users/list-users.component.ts:66-70 | After a load the list is the merge, the screen is on page 1, and it is consistent. |

## Left out

- HTTP controllers, REST and JPA mappers, JPA entities and adapters, the exception handler and the bean wiring: the two stores stand in for the database. The entities also declare column constraints, which the database enforces when the schema follows them. The constraints that reachable requests can break are listed under `LendBook.Lend` and `Catalog.Save` below.
- `LocalDate.now()`: the lending use case takes today's date as a parameter. The Java code reads the clock twice, in the calculator and in `Prestamo.crear`; the model uses one day for both, so a request that crosses midnight is not modelled.
- Concurrency: two simultaneous guest requests could both pass the count check before either loan is saved. Requests are applied one at a time here.
- Java's 32-bit `int` overflow of ids and of the loop counter: integers are unbounded. No reachable input comes near the limit.
- `findById(null)`: the query id is a plain integer.
- LendBook.Lend: the request's ISBN and user id cannot be null. The controller and the REST mapper check neither field. In Java a null user id passes every check and then fails when the loan is saved, because the user column is NOT NULL. The model's string fields cannot express either null. The user id column is also limited to 20 characters (PrestamoJpaEntity.java:29), and nothing checks that length before the save. In Java, a request with a longer user id passes every check and then fails when the loan is stored; the model stores it.
- Catalog.Save: the ISBN column is limited to 20 characters, and the title and author columns are NOT NULL (LibroJpaEntity.java:55, 62, 83). The model's save accepts any ISBN length, and its strings cannot be null, so the database's rejection of such books is not modelled.
- QueryLoan.Consult: each loan holds a copy of its book as it was when the loan was saved. The Java loan stores only the book's id (PrestamoJpaEntity.java:35-37), and the query reads the book row as it is now. So after the catalog updates a book's title or ISBN, Java's query shows the new values, while the model shows the values from when the loan was made.
- The `Libro.crear` factory and catalog seeding: the catalog is given.
- Closing or returning a loan does not exist in the source, so every stored loan counts as active.
- DateFormat.FormatRoundTrip: covers years 1 to 9999 only. A year y of 0 or less renders as year of era 1 - y with no era marker, so it reads back as a different year; for example, year 0 prints as `0001`. Years of 10000 and more are printed behind a '+' sign and do not read back. `DateFormat.YearText` models both renderings.
- UserFilter.SearchFilter: lower-cases only ASCII letters. JavaScript's `toLowerCase` also folds other scripts, which is not modelled because strings here are plain character sequences.
- UserFilter.SearchFilter: the three-character threshold counts Unicode scalar values, while JavaScript's `length` counts UTF-16 code units. A term with characters outside the Basic Multilingual Plane can therefore reach three in JavaScript but not in the model. For example, an emoji followed by one letter has JavaScript length 3 but model length 2. The same applies to `UserFilter.Transform` and the list's search.
- `getLocalUsers`, `removeUserFromLocalStorage` and `loadUsers`: reading and writing browser storage, the default field values for stored users, and the API call are I/O. The merge takes the two lists as parameters.
- The rest of `deleteUser`: the server call, the notification, the dialog and the failure path, which changes no list state. Only the list update after a confirmed delete is modelled.
- The pipe receives `any[]`: users without a `first_name` would make it throw. The model's users always have one.
- Event listeners, change detection and the rest of the Angular components are out of scope.

=== FILE: Calendar.dfy ===
/** The proleptic Gregorian calendar of `java.time.LocalDate`, with a date held
    as its epoch day: day 0 is 1970-01-01, a Thursday. */
module Calendar {

  /** An epoch day, the integer `LocalDate.toEpochDay` returns. */
  type Day = int

  const Monday := 1
  const Friday := 5
  const Saturday := 6
  const Sunday := 7

  /** ISO day of week, Monday = 1 .. Sunday = 7, computed as `LocalDate` does
      with a floor modulus (Dafny's `%` never returns a negative value). */
  function DayOfWeek(d: Day): (w: int)
    ensures Monday <= w <= Sunday
  {
    (d + 3) % 7 + 1
  }

  predicate IsBusinessDay(d: Day)
  {
    DayOfWeek(d) <= Friday
  }

  /** The weekday of the next day follows the Monday..Sunday cycle. */
  lemma DayOfWeekNext(d: Day)
    ensures DayOfWeek(d + 1) == if DayOfWeek(d) == Sunday then Monday else DayOfWeek(d) + 1
  {
  }

  /** A civil date as `LocalDate` shows it: year, month 1..12, day of month. */
  datatype CivilDate = CivilDate(year: int, month: int, day: int)

  predicate IsLeapYear(y: int)
  {
    y % 4 == 0 && (y % 100 != 0 || y % 400 == 0)
  }

  function YearLength(y: int): int
  {
    if IsLeapYear(y) then 366 else 365
  }

  function MonthLength(y: int, m: int): int
    requires 1 <= m <= 12
  {
    if m == 2 then (if IsLeapYear(y) then 29 else 28)
    else if m == 4 || m == 6 || m == 9 || m == 11 then 30
    else 31
  }

  predicate IsValid(c: CivilDate)
  {
    1 <= c.month <= 12 && 1 <= c.day <= MonthLength(c.year, c.month)
  }

  /** Days of a common year before the first of each month; entry 12 is the
      whole year. */
  const CumulativeDays: seq<int> := [0, 31, 59, 90, 120, 151, 181, 212, 243, 273, 304, 334, 365]

  /** Days of year `y` before the first of month `m`; month 13 stands for the
      end of the year. */
  function DaysBeforeMonth(y: int, m: int): int
    requires 1 <= m <= 13
  {
    CumulativeDays[m - 1] + (if IsLeapYear(y) && m > 2 then 1 else 0)
  }

  lemma DaysBeforeMonthStep(y: int, m: int)
    requires 1 <= m <= 12
    ensures DaysBeforeMonth(y, m + 1) == DaysBeforeMonth(y, m) + MonthLength(y, m)
    ensures DaysBeforeMonth(y, 1) == 0 && DaysBeforeMonth(y, 13) == YearLength(y)
  {
  }

  /** The epoch day of the first of January of year `y`. */
  function YearStart(y: int): Day
    decreases if y >= 1970 then y - 1970 else 1970 - y
  {
    if y == 1970 then 0
    else if y > 1970 then YearStart(y - 1) + YearLength(y - 1)
    else YearStart(y + 1) - YearLength(y)
  }

  lemma YearStartStep(y: int)
    ensures YearStart(y + 1) == YearStart(y) + YearLength(y)
  {
  }

  /** Later years start strictly later: the year of a day is unique. */
  lemma {:induction false} YearStartMonotone(a: int, b: int)
    requires a < b
    ensures YearStart(a + 1) <= YearStart(b)
    decreases b - a
  {
    if a + 1 < b {
      YearStartMonotone(a + 1, b);
      YearStartStep(a + 1);
    }
  }

  lemma YearUnique(e: Day, a: int, b: int)
    requires YearStart(a) <= e < YearStart(a + 1)
    requires YearStart(b) <= e < YearStart(b + 1)
    ensures a == b
  {
    if a < b {
      YearStartMonotone(a, b);
    } else if b < a {
      YearStartMonotone(b, a);
    }
  }

  function YearUpFrom(e: Day, y: int): (r: int)
    requires YearStart(y) <= e
    ensures YearStart(r) <= e < YearStart(r + 1)
    decreases e - YearStart(y)
  {
    YearStartStep(y);
    if e < YearStart(y + 1) then y else YearUpFrom(e, y + 1)
  }

  function YearDownFrom(e: Day, y: int): (r: int)
    requires e < YearStart(y + 1)
    ensures YearStart(r) <= e < YearStart(r + 1)
    decreases YearStart(y + 1) - e
  {
    YearStartStep(y);
    if YearStart(y) <= e then y else YearDownFrom(e, y - 1)
  }

  /** The year an epoch day falls in. */
  function YearOf(e: Day): (y: int)
    ensures YearStart(y) <= e < YearStart(y + 1)
  {
    if e >= 0 then YearUpFrom(e, 1970) else YearDownFrom(e, 1969)
  }

  function MonthDownFrom(y: int, doy: int, m: int): (r: int)
    requires 1 <= m <= 12 && 0 <= doy < DaysBeforeMonth(y, m + 1)
    ensures 1 <= r <= m && DaysBeforeMonth(y, r) <= doy < DaysBeforeMonth(y, r + 1)
    decreases m
  {
    if DaysBeforeMonth(y, m) <= doy then m else MonthDownFrom(y, doy, m - 1)
  }

  /** `LocalDate.toEpochDay`. */
  function ToEpochDay(c: CivilDate): Day
    requires IsValid(c)
  {
    YearStart(c.year) + DaysBeforeMonth(c.year, c.month) + c.day - 1
  }

  /** `LocalDate.ofEpochDay`: the valid civil date whose epoch day is `e`. */
  function FromEpochDay(e: Day): (c: CivilDate)
    ensures IsValid(c) && ToEpochDay(c) == e
  {
    var y := YearOf(e);
    YearStartStep(y);
    var doy := e - YearStart(y);
    var m := MonthDownFrom(y, doy, 12);
    DaysBeforeMonthStep(y, m);
    CivilDate(y, m, doy - DaysBeforeMonth(y, m) + 1)
  }

  /** Months start strictly later as the month number grows. */
  lemma DaysBeforeMonthMonotone(y: int, a: int, b: int)
    requires 1 <= a < b <= 13
    ensures DaysBeforeMonth(y, a) < DaysBeforeMonth(y, b)
  {
  }

  lemma MonthUnique(y: int, doy: int, a: int, b: int)
    requires 1 <= a <= 12 && 1 <= b <= 12
    requires DaysBeforeMonth(y, a) <= doy < DaysBeforeMonth(y, a + 1)
    requires DaysBeforeMonth(y, b) <= doy < DaysBeforeMonth(y, b + 1)
    ensures a == b
  {
    if a < b {
      if a + 1 < b {
        DaysBeforeMonthMonotone(y, a + 1, b);
      }
    } else if b < a {
      if b + 1 < a {
        DaysBeforeMonthMonotone(y, b + 1, a);
      }
    }
  }

  /** Converting a valid civil date to its epoch day and back loses nothing,
      so distinct valid dates have distinct epoch days. */
  lemma CivilRoundTrip(c: CivilDate)
    requires IsValid(c)
    ensures FromEpochDay(ToEpochDay(c)) == c
  {
    var e := ToEpochDay(c);
    DaysBeforeMonthStep(c.year, c.month);
    YearStartStep(c.year);
    var y := YearOf(e);
    YearUnique(e, y, c.year);
    var doy := e - YearStart(y);
    var m := MonthDownFrom(y, doy, 12);
    MonthUnique(y, doy, m, c.month);
  }

  lemma ToEpochDayInjective(c: CivilDate, d: CivilDate)
    requires IsValid(c) && IsValid(d)
    ensures ToEpochDay(c) == ToEpochDay(d) <==> c == d
  {
    if ToEpochDay(c) == ToEpochDay(d) {
      CivilRoundTrip(c);
      CivilRoundTrip(d);
    }
  }
}

=== FILE: Catalog.dfy ===
/** The book catalog behind `LibroRepositoryPort`: books keyed by their ISBN,
    which is unique, each with an id the catalog assigned. */
module Catalog {
  import opened Results
  import opened Domain

  datatype Catalog = Catalog(books: map<string, Book>, nextId: int)

  /** Every entry sits under its own ISBN, carries an assigned id below
      `nextId`, and no two entries share an id. */
  predicate Valid(c: Catalog)
  {
    && 1 <= c.nextId
    && (forall i :: i in c.books ==>
          c.books[i].isbn == i && c.books[i].id.Some? && 1 <= c.books[i].id.value < c.nextId)
    && (forall i, j :: i in c.books && j in c.books && i != j ==> c.books[i].id != c.books[j].id)
  }

  const Empty := Catalog(map[], 1)

  lemma EmptyValid()
    ensures Valid(Empty) && Empty.books == map[]
  {
  }

  /** `findByIsbn`: the catalogued book with that ISBN, or nothing. */
  function FindByIsbn(c: Catalog, isbn: string): (r: Option<Book>)
    requires Valid(c)
    ensures r.Some? <==> isbn in c.books
    ensures r.Some? ==> r.value.isbn == isbn && r.value == c.books[isbn]
  {
    if isbn in c.books then Some(c.books[isbn]) else None
  }

  /** Some entry carries the id `id`. */
  predicate HasId(c: Catalog, id: int)
  {
    exists i :: i in c.books && c.books[i].id == Some(id)
  }

  /** The entries kept when the entry with id `id` is replaced. */
  function Without(c: Catalog, id: Option<int>): map<string, Book>
  {
    map i | i in c.books && c.books[i].id != id :: c.books[i]
  }

  lemma ReplaceKeepsValid(c: Catalog, book: Book)
    requires Valid(c)
    requires book.id.Some? && HasId(c, book.id.value)
    requires !(book.isbn in c.books && c.books[book.isbn].id != book.id)
    ensures Valid(Catalog(Without(c, book.id)[book.isbn := book], c.nextId))
  {
    var j :| j in c.books && c.books[j].id == book.id;
    var b := Without(c, book.id)[book.isbn := book];
    forall i | i in b
      ensures b[i].isbn == i && b[i].id.Some? && 1 <= b[i].id.value < c.nextId
    {
    }
    forall i, k | i in b && k in b && i != k
      ensures b[i].id != b[k].id
    {
    }
  }

  lemma InsertKeepsValid(c: Catalog, book: Book)
    requires Valid(c)
    requires book.isbn !in c.books
    ensures Valid(Catalog(c.books[book.isbn := book.(id := Some(c.nextId))], c.nextId + 1))
    ensures !HasId(c, c.nextId)
  {
  }

  /** `save`: fails when another entry already holds the book's ISBN; a book
      whose id names an existing entry replaces that entry; any other book is
      added under a freshly assigned id. */
  function Save(c: Catalog, book: Book): (r: Result<(Catalog, Book), Error>)
    requires Valid(c)
    ensures r.Failure? <==> book.isbn in c.books && c.books[book.isbn].id != book.id
    ensures r.Failure? ==> r.error == DuplicateIsbn(book.isbn)
    ensures r.Success? ==>
      var (c', saved) := r.value;
      && Valid(c')
      && saved.id.Some?
      && saved == book.(id := saved.id)
      && FindByIsbn(c', book.isbn) == Some(saved)
      && (book.id.None? ==> !HasId(c, saved.id.value))
      && (!(book.id.Some? && HasId(c, book.id.value)) ==> !HasId(c, saved.id.value))
      && (forall i :: i in c.books && c.books[i].id != saved.id ==> i in c'.books && c'.books[i] == c.books[i])
      && (forall i :: i in c'.books && i != book.isbn ==> i in c.books && c'.books[i] == c.books[i])
      && (book.id.Some? && HasId(c, book.id.value) ==>
            saved.id == book.id
            && forall i :: i in c'.books && i != book.isbn ==> c'.books[i].id != book.id)
  {
    if book.isbn in c.books && c.books[book.isbn].id != book.id then
      Failure(DuplicateIsbn(book.isbn))
    else if book.id.Some? && HasId(c, book.id.value) then
      ReplaceKeepsValid(c, book);
      Success((Catalog(Without(c, book.id)[book.isbn := book], c.nextId), book))
    else
      InsertKeepsValid(c, book);
      Success((Catalog(c.books[book.isbn := book.(id := Some(c.nextId))], c.nextId + 1),
               book.(id := Some(c.nextId))))
  }

  /** Updating a stored book under a new ISBN moves it: the entry under the
      old ISBN is gone and the book is found under the new one with its id. */
  lemma SaveMovesUpdatedBook(c: Catalog, book: Book, oldIsbn: string)
    requires Valid(c)
    requires oldIsbn in c.books && book.id.Some? && c.books[oldIsbn].id == book.id
    requires oldIsbn != book.isbn && book.isbn !in c.books
    ensures Save(c, book).Success?
    ensures FindByIsbn(Save(c, book).value.0, oldIsbn) == None
    ensures FindByIsbn(Save(c, book).value.0, book.isbn) == Some(book)
  {
    assert HasId(c, book.id.value);
  }

  /** ISBN is a unique key: after any successful save, saving a different new
      book with the same ISBN fails. */
  lemma IsbnIsUniqueKey(c: Catalog, book: Book, other: Book)
    requires Valid(c)
    requires Save(c, book).Success?
    requires other.id.None? && other.isbn == book.isbn
    ensures Save(Save(c, book).value.0, other) == Failure(DuplicateIsbn(book.isbn))
  {
  }
}

=== FILE: DateFormat.dfy ===
/** The `dd/MM/yyyy` rendering both use cases apply to a due date
    (`DateTimeFormatter.ofPattern("dd/MM/yyyy")`): two-digit day, two-digit
    month and the year of era padded to at least four digits. */
module DateFormat {
  import opened Results
  import opened Calendar

  predicate IsDigit(ch: char)
  {
    '0' <= ch <= '9'
  }

  function DigitChar(n: int): (ch: char)
    requires 0 <= n <= 9
    ensures IsDigit(ch)
  {
    (48 + n) as char
  }

  function DigitValue(ch: char): int
  {
    ch as int - 48
  }

  /** `dd` and `MM`: two digits, with a leading zero below ten. */
  function TwoDigits(n: int): string
    requires 0 <= n <= 99
  {
    [DigitChar(n / 10), DigitChar(n % 10)]
  }

  function FourDigits(n: int): string
    requires 0 <= n <= 9999
  {
    [DigitChar(n / 1000), DigitChar(n / 100 % 10), DigitChar(n / 10 % 10), DigitChar(n % 10)]
  }

  /** Decimal digits of `n` without leading zeros. */
  function Decimal(n: nat): string
  {
    if n < 10 then [DigitChar(n)] else Decimal(n / 10) + [DigitChar(n % 10)]
  }

  /** The ISO year of era: years 1, 2, ... stay, year 0 is 1 BCE, -1 is 2 BCE. */
  function YearOfEra(y: int): nat
  {
    if y >= 1 then y else 1 - y
  }

  /** `yyyy`: the year of era in at least four digits; a value that does not
      fit in four digits is printed in full behind a '+' sign. */
  function YearText(y: int): string
  {
    var v := YearOfEra(y);
    if v >= 10000 then "+" + Decimal(v) else FourDigits(v)
  }

  /** A civil date rendered as `dd/MM/yyyy`. */
  function Format(c: CivilDate): string
    requires IsValid(c)
  {
    TwoDigits(c.day) + "/" + TwoDigits(c.month) + "/" + YearText(c.year)
  }

  /** A `LocalDate`, held as its epoch day, rendered as `dd/MM/yyyy`. */
  function FormatDay(d: Day): string
  {
    Format(FromEpochDay(d))
  }

  /** Reads a ten-character `dd/MM/yyyy` text back into its three numbers; the
      inverse the round-trip lemmas are stated against. */
  function Parse(s: string): Option<CivilDate>
  {
    if |s| == 10 && s[2] == '/' && s[5] == '/'
       && IsDigit(s[0]) && IsDigit(s[1]) && IsDigit(s[3]) && IsDigit(s[4])
       && IsDigit(s[6]) && IsDigit(s[7]) && IsDigit(s[8]) && IsDigit(s[9])
    then
      Some(CivilDate(
        DigitValue(s[6]) * 1000 + DigitValue(s[7]) * 100 + DigitValue(s[8]) * 10 + DigitValue(s[9]),
        DigitValue(s[3]) * 10 + DigitValue(s[4]),
        DigitValue(s[0]) * 10 + DigitValue(s[1])))
    else None
  }

  lemma TwoDigitsValue(n: int)
    requires 0 <= n <= 99
    ensures |TwoDigits(n)| == 2 && IsDigit(TwoDigits(n)[0]) && IsDigit(TwoDigits(n)[1])
    ensures DigitValue(TwoDigits(n)[0]) * 10 + DigitValue(TwoDigits(n)[1]) == n
  {
  }

  lemma FourDigitsValue(n: int)
    requires 0 <= n <= 9999
    ensures |FourDigits(n)| == 4
    ensures forall i :: 0 <= i < 4 ==> IsDigit(FourDigits(n)[i])
    ensures DigitValue(FourDigits(n)[0]) * 1000 + DigitValue(FourDigits(n)[1]) * 100
          + DigitValue(FourDigits(n)[2]) * 10 + DigitValue(FourDigits(n)[3]) == n
  {
  }

  /** For years 1..9999 the text is exactly ten characters with slashes at
      positions 2 and 5, and reading it back gives the same date. */
  lemma FormatRoundTrip(c: CivilDate)
    requires IsValid(c) && 1 <= c.year <= 9999
    ensures |Format(c)| == 10 && Format(c)[2] == '/' && Format(c)[5] == '/'
    ensures Parse(Format(c)) == Some(c)
  {
    var dd, mm, yyyy := TwoDigits(c.day), TwoDigits(c.month), FourDigits(c.year);
    TwoDigitsValue(c.day);
    TwoDigitsValue(c.month);
    FourDigitsValue(c.year);
    var s := Format(c);
    assert s == dd + "/" + mm + "/" + yyyy;
    assert s[0] == dd[0] && s[1] == dd[1] && s[3] == mm[0] && s[4] == mm[1];
    assert s[6] == yyyy[0] && s[7] == yyyy[1] && s[8] == yyyy[2] && s[9] == yyyy[3];
  }

  /** Different days in years 1..9999 never render to the same text. */
  lemma FormatDayInjective(d1: Day, d2: Day)
    requires 1 <= FromEpochDay(d1).year <= 9999 && 1 <= FromEpochDay(d2).year <= 9999
    ensures FormatDay(d1) == FormatDay(d2) <==> d1 == d2
  {
    if FormatDay(d1) == FormatDay(d2) {
      FormatRoundTrip(FromEpochDay(d1));
      FormatRoundTrip(FromEpochDay(d2));
    }
  }
}

=== FILE: Domain.dfy ===
/** The loan and book records (`Prestamo`, `Libro`) and the error kinds the
    loan core raises. */
module Domain {
  import opened Results
  import opened Calendar
  import opened UserTypes

  /** A catalogued book; the ISBN is its lookup key. `id` is unset until the
      catalog stores it. */
  datatype Book = Book(
    id: Option<int>,
    isbn: string,
    title: string,
    author: string,
    description: string,
    publicationDate: Option<Day>,
    publisher: string)

  /** A loan: who borrowed which book, when, and until when. `id` is unset
      until the loan store assigns one. */
  datatype Loan = Loan(
    id: Option<int>,
    loanDate: Day,
    dueDate: Day,
    userId: string,
    userType: UserType,
    book: Book)

  /** The failures of the loan core, one constructor per exception. */
  datatype Error =
    | UserTypeNotAllowed                 // TipoUsuarioNoPermitidoException
    | UserAlreadyHasLoan(userId: string) // UsuarioConPrestamoExistenteException
    | BookNotFound(isbn: string)         // lookup before lending found no book
    | LoanNotFound(loanId: int)          // PrestamoNoEncontradoException
    | BookNotInCatalog(isbn: string)     // the loan store could not link the book
    | DuplicateIsbn(isbn: string)        // the catalog already holds that ISBN
    | NonUniqueResult(userId: string)    // a single-loan lookup matched several

  /** `Prestamo.crear`: a new, not yet persisted loan taken today. */
  function CreateLoan(userId: string, t: UserType, book: Book, dueDate: Day, today: Day): (l: Loan)
    ensures l.id.None?
    ensures l.loanDate == today && l.dueDate == dueDate
    ensures l.userId == userId && l.userType == t && l.book == book
  {
    Loan(None, today, dueDate, userId, t, book)
  }
}

=== FILE: DueDates.dfy ===
/** The due-date calculator (`CalculadorFechaDevolucion`): a loan lasts a
    number of business days, counted from the day after the base date and
    skipping Saturdays and Sundays. No holiday calendar is consulted. */
module DueDates {
  import opened Calendar
  import opened UserTypes

  /** Number of business days in the half-open interval (lo, hi]. */
  function BusinessDaysBetween(lo: Day, hi: Day): nat
    decreases hi - lo
  {
    if hi <= lo then 0
    else (if IsBusinessDay(lo + 1) then 1 else 0) + BusinessDaysBetween(lo + 1, hi)
  }

  /** `r` is the earliest day after `base` by which `n` business days have
      elapsed: the count over (base, r] is `n`, and over every shorter span it
      is smaller. */
  ghost predicate IsDueDate(base: Day, n: nat, r: Day)
  {
    && base <= r
    && BusinessDaysBetween(base, r) == n
    && forall x :: base <= x < r ==> BusinessDaysBetween(base, x) < n
  }

  /** Extending the interval by one day adds that day if it is a business day. */
  lemma {:induction false} BusinessDaysExtend(lo: Day, hi: Day)
    requires lo <= hi
    ensures BusinessDaysBetween(lo, hi + 1)
         == BusinessDaysBetween(lo, hi) + (if IsBusinessDay(hi + 1) then 1 else 0)
    decreases hi - lo
  {
    if lo < hi {
      BusinessDaysExtend(lo + 1, hi);
    }
  }

  /** Counting over (a, c] is counting over (a, b] and then over (b, c]. */
  lemma {:induction false} BusinessDaysSplit(a: Day, b: Day, c: Day)
    requires a <= b <= c
    ensures BusinessDaysBetween(a, c) == BusinessDaysBetween(a, b) + BusinessDaysBetween(b, c)
    decreases b - a
  {
    if a < b {
      BusinessDaysSplit(a + 1, b, c);
    }
  }

  /** At most one day satisfies `IsDueDate` for a given base and count. */
  lemma DueDateUnique(base: Day, n: nat, r1: Day, r2: Day)
    requires IsDueDate(base, n, r1) && IsDueDate(base, n, r2)
    ensures r1 == r2
  {
  }

  /** For a positive count the due date lies strictly after the base and is
      itself a business day: were it a Saturday or Sunday, the day before would
      already complete the count. */
  lemma DueDateIsBusinessDay(base: Day, n: nat, r: Day)
    requires IsDueDate(base, n, r) && n > 0
    ensures base < r && IsBusinessDay(r)
  {
    if r > base && !IsBusinessDay(r) {
      BusinessDaysExtend(base, r - 1);
    }
  }

  /** Moving the base forward by one day, as each loop step does. */
  lemma DueDateShift(base: Day, n: nat, r: Day)
    requires n > 0
    requires IsDueDate(base + 1, if IsBusinessDay(base + 1) then n - 1 else n, r)
    ensures IsDueDate(base, n, r)
  {
    forall x | base <= x < r
      ensures BusinessDaysBetween(base, x) < n
    {
      if x > base {
        assert BusinessDaysBetween(base, x)
            == (if IsBusinessDay(base + 1) then 1 else 0) + BusinessDaysBetween(base + 1, x);
      }
    }
  }

  /** How many weekend days immediately follow `d`; it shrinks on every step
      through a weekend, which is why the walk terminates. */
  function WeekendRun(d: Day): nat
  {
    if DayOfWeek(d) == Friday then 2 else if DayOfWeek(d) == Saturday then 1 else 0
  }

  /** The walk of `addDaysSkippingWeekends`, one day per call: the result is
      the due date `n` business days after `base`, and `base` itself when `n`
      is zero or negative. */
  function AddBusinessDays(base: Day, n: int): (r: Day)
    ensures n <= 0 ==> r == base
    ensures n >= 0 ==> IsDueDate(base, n, r)
    decreases if n > 0 then n else 0, WeekendRun(base)
  {
    if n <= 0 then base
    else
      DayOfWeekNext(base);
      var r := if IsBusinessDay(base + 1) then AddBusinessDays(base + 1, n - 1)
               else AddBusinessDays(base + 1, n);
      DueDateShift(base, n, r);
      r
  }

  /** `addDaysSkippingWeekends`: advance one day at a time and count only
      Monday to Friday until `days` business days have been counted. */
  method AddDaysSkippingWeekends(date: Day, days: int) returns (result: Day)
    ensures days <= 0 ==> result == date
    ensures days >= 0 ==> IsDueDate(date, days, result)
    ensures days > 0 ==> date < result && IsBusinessDay(result)
    ensures result == AddBusinessDays(date, days)
  {
    result := date;
    var addedDays := 0;
    while addedDays < days
      invariant date <= result
      invariant 0 <= addedDays && (days >= 0 ==> addedDays <= days)
      invariant addedDays == BusinessDaysBetween(date, result)
      invariant forall x :: date <= x < result ==> BusinessDaysBetween(date, x) < days
      decreases days - addedDays, WeekendRun(result)
    {
      DayOfWeekNext(result);
      BusinessDaysExtend(date, result);
      result := result + 1;
      if IsBusinessDay(result) {
        addedDays := addedDays + 1;
      }
    }
    if days > 0 {
      DueDateIsBusinessDay(date, days, result);
    }
    if days >= 0 {
      DueDateUnique(date, days, result, AddBusinessDays(date, days));
    }
  }

  /** `calcular(tipoUsuario, fechaBase)`: the due date of a loan of category
      `t` taken on `base`, exactly `LoanDays(t)` business days later. The
      one-argument overload is this function applied to today's date. */
  function DueDateFor(t: UserType, base: Day): (r: Day)
    ensures IsDueDate(base, LoanDays(t), r)
    ensures base < r && IsBusinessDay(r)
  {
    var r := AddBusinessDays(base, LoanDays(t));
    DueDateIsBusinessDay(base, LoanDays(t), r);
    r
  }

  /** Any seven consecutive days hold exactly five business days. */
  lemma WeekHasFiveBusinessDays(d: Day)
    ensures BusinessDaysBetween(d, d + 7) == 5
  {
    BusinessDaysExtend(d, d);
    BusinessDaysExtend(d, d + 1);
    BusinessDaysExtend(d, d + 2);
    BusinessDaysExtend(d, d + 3);
    BusinessDaysExtend(d, d + 4);
    BusinessDaysExtend(d, d + 5);
    BusinessDaysExtend(d, d + 6);
    DayOfWeekNext(d);
    DayOfWeekNext(d + 1);
    DayOfWeekNext(d + 2);
    DayOfWeekNext(d + 3);
    DayOfWeekNext(d + 4);
    DayOfWeekNext(d + 5);
  }

  /** The count over (base, r] reaching `n` exactly at `r` pins `r` down as
      the due date. */
  lemma DueDateFromCounts(base: Day, n: nat, r: Day)
    requires n > 0 && base < r
    requires BusinessDaysBetween(base, r) == n
    requires BusinessDaysBetween(base, r - 1) == n - 1
    ensures AddBusinessDays(base, n) == r
  {
    forall x | base <= x < r
      ensures BusinessDaysBetween(base, x) < n
    {
      BusinessDaysSplit(base, x, r - 1);
    }
    DueDateUnique(base, n, r, AddBusinessDays(base, n));
  }

  /** A member (10 business days) borrowing on a Monday returns on the Monday
      two weeks later, not on the following Monday. */
  lemma MondayAfiliadoDueInTwoWeeks(d: Day)
    requires DayOfWeek(d) == Monday
    ensures DueDateFor(Afiliado, d) == d + 14
    ensures DueDateFor(Afiliado, d) != d + 7
  {
    WeekHasFiveBusinessDays(d);
    WeekHasFiveBusinessDays(d + 7);
    BusinessDaysSplit(d, d + 7, d + 14);
    BusinessDaysExtend(d, d + 13);
    DueDateFromCounts(d, 10, d + 14);
  }

  /** A guest (7 business days) borrowing on a Friday returns on the Tuesday
      eleven days later, after two weekends. */
  lemma FridayInvitadoDueElevenDaysLater(d: Day)
    requires DayOfWeek(d) == Friday
    ensures DueDateFor(Invitado, d) == d + 11
    ensures DayOfWeek(d + 11) == 2
  {
    WeekHasFiveBusinessDays(d);
    BusinessDaysExtend(d + 7, d + 7);
    BusinessDaysExtend(d + 7, d + 8);
    BusinessDaysExtend(d + 7, d + 9);
    BusinessDaysExtend(d + 7, d + 10);
    BusinessDaysSplit(d, d + 7, d + 10);
    BusinessDaysSplit(d, d + 7, d + 11);
    DueDateFromCounts(d, 7, d + 11);
  }
}

=== FILE: LendBook.dfy ===
/** The lending use case (`PrestarLibroUseCaseImpl.ejecutar`): validate the
    category, apply the guest cap, look the book up, compute the due date,
    create and save the loan, and answer with its id and due date. Any failing
    step ends the request before anything is written. */
module LendBook {
  import opened Results
  import opened Calendar
  import opened UserTypes
  import opened Domain
  import opened DueDates
  import opened DateFormat
  import opened Validator
  import Catalog
  import LS = LoanStore

  /** The request: which book, who borrows it, and the raw category code. */
  datatype LendCommand = LendCommand(isbn: string, userId: string, userTypeCode: Option<int>)

  /** The answer: the stored loan's id and its due date as `dd/MM/yyyy`. */
  datatype Receipt = Receipt(id: int, dueDate: string)

  /** The loan store after the request, and the request's result. */
  datatype LendOutcome = LendOutcome(store: LS.LoanStore, result: Result<Receipt, Error>)

  /** `obtenerOCrearLibro`: despite its name it only looks the book up, and a
      missing book is an error; nothing is added to the catalog. */
  function FindBook(catalog: Catalog.Catalog, isbn: string): (r: Result<Book, Error>)
    requires Catalog.Valid(catalog)
    ensures r.Success? <==> isbn in catalog.books
    ensures r.Failure? ==> r.error == BookNotFound(isbn)
    ensures r.Success? ==> r.value.isbn == isbn && r.value == catalog.books[isbn]
  {
    match Catalog.FindByIsbn(catalog, isbn)
    case Some(book) => Success(book)
    case None => Failure(BookNotFound(isbn))
  }

  /** The guest cap applies to this request: the code names the guest
      category and the user already has a stored loan. */
  predicate GuestCapHit(s: LS.LoanStore, cmd: LendCommand)
  {
    cmd.userTypeCode == Some(Code(Invitado)) && LS.CountByUser(s, cmd.userId) > 0
  }

  /** Every check of the request passes. */
  predicate Lendable(s: LS.LoanStore, catalog: Catalog.Catalog, cmd: LendCommand)
  {
    cmd.userTypeCode.Some? && IsValidCode(cmd.userTypeCode.value)
    && !GuestCapHit(s, cmd)
    && cmd.isbn in catalog.books
  }

  /** `ejecutar`, with today's date passed in. */
  function Lend(s: LS.LoanStore, catalog: Catalog.Catalog, cmd: LendCommand, today: Day): (o: LendOutcome)
    requires LS.Valid(s) && Catalog.Valid(catalog)
    // failures, in the order the checks run, and nothing written on any of them
    ensures o.result.Failure? ==> o.store == s
    ensures !(cmd.userTypeCode.Some? && IsValidCode(cmd.userTypeCode.value))
            ==> o.result == Failure(UserTypeNotAllowed)
    ensures cmd.userTypeCode.Some? && IsValidCode(cmd.userTypeCode.value) && GuestCapHit(s, cmd)
            ==> o.result == Failure(UserAlreadyHasLoan(cmd.userId))
    ensures cmd.userTypeCode.Some? && IsValidCode(cmd.userTypeCode.value) && !GuestCapHit(s, cmd)
            && cmd.isbn !in catalog.books
            ==> o.result == Failure(BookNotFound(cmd.isbn))
    ensures o.result.Success? <==> Lendable(s, catalog, cmd)
    // on success exactly one loan is added, under a fresh id
    ensures o.result.Success? ==>
      var id := o.result.value.id;
      var t := FromCode(cmd.userTypeCode).value;
      && LS.Valid(o.store)
      && id !in s.loans
      && id in o.store.loans
      && var due := o.store.loans[id].dueDate;
         && o.store.loans == s.loans[id := Loan(Some(id), today, due, cmd.userId, t, catalog.books[cmd.isbn])]
         && IsDueDate(today, LoanDays(t), due)
         && today < due
         && o.result.value.dueDate == FormatDay(due)
  {
    match ValidateUserType(cmd.userTypeCode)
    case Fail(e) => LendOutcome(s, Failure(e))
    case Pass =>
      var t := FromCode(cmd.userTypeCode).value;
      match ValidateGuest(s, cmd.userId, t)
      case Fail(e) => LendOutcome(s, Failure(e))
      case Pass =>
        match FindBook(catalog, cmd.isbn)
        case Failure(e) => LendOutcome(s, Failure(e))
        case Success(book) =>
          var due := DueDateFor(t, today);
          var loan := CreateLoan(cmd.userId, t, book, due, today);
          match LS.Save(s, catalog, loan)
          case Failure(e) => LendOutcome(s, Failure(e))
          case Success((s', saved)) =>
            LendOutcome(s', Success(Receipt(saved.id.value, FormatDay(due))))
  }

  /** A guest who has just borrowed is refused any further loan, whatever book
      they ask for and whatever day it is. */
  lemma GuestSecondLoanRefused(s: LS.LoanStore, catalog: Catalog.Catalog, cmd: LendCommand,
                               today: Day, isbn2: string, today2: Day)
    requires LS.Valid(s) && Catalog.Valid(catalog)
    requires cmd.userTypeCode == Some(3)
    requires Lend(s, catalog, cmd, today).result.Success?
    ensures var again := LendCommand(isbn2, cmd.userId, Some(3));
            Lend(Lend(s, catalog, cmd, today).store, catalog, again, today2).result
              == Failure(UserAlreadyHasLoan(cmd.userId))
  {
    var s' := Lend(s, catalog, cmd, today).store;
    var id := Lend(s, catalog, cmd, today).result.value.id;
    assert id in LS.LoansOf(s', cmd.userId);
  }
}

=== FILE: LoanStore.dfy ===
/** The loan store behind `PrestamoRepositoryPort`: loans keyed by the id the
    store assigned them. Every stored loan counts as active, since no loan is
    ever returned or closed. */
module LoanStore {
  import opened Results
  import opened Domain
  import Catalog
  import UserTypes
  import opened Calendar

  datatype LoanStore = LoanStore(loans: map<int, Loan>, nextId: int)

  /** Every record carries its own key as id, and keys are below `nextId`,
      so `nextId` is always free. */
  predicate Valid(s: LoanStore)
  {
    && 1 <= s.nextId
    && forall k :: k in s.loans ==> 1 <= k < s.nextId && s.loans[k].id == Some(k)
  }

  const Empty := LoanStore(map[], 1)

  lemma EmptyValid()
    ensures Valid(Empty) && Empty.loans == map[]
  {
  }

  /** `findById`: the stored loan with that id, or nothing. */
  function FindById(s: LoanStore, id: int): (r: Option<Loan>)
    requires Valid(s)
    ensures r.Some? <==> id in s.loans
    ensures r.Some? ==> r.value == s.loans[id] && r.value.id == Some(id)
  {
    if id in s.loans then Some(s.loans[id]) else None
  }

  /** Keys of the loans held by user `u`. */
  function LoansOf(s: LoanStore, u: string): set<int>
  {
    set k | k in s.loans && s.loans[k].userId == u
  }

  /** `countByIdentificacionUsuario`: how many stored loans user `u` holds. */
  function CountByUser(s: LoanStore, u: string): (n: nat)
    ensures n == 0 <==> forall k :: k in s.loans ==> s.loans[k].userId != u
  {
    CountFacts(s, u);
    |LoansOf(s, u)|
  }

  lemma CountFacts(s: LoanStore, u: string)
    ensures |LoansOf(s, u)| == 0 <==> forall k :: k in s.loans ==> s.loans[k].userId != u
  {
    if forall k :: k in s.loans ==> s.loans[k].userId != u {
      assert LoansOf(s, u) == {};
    } else {
      var k :| k in s.loans && s.loans[k].userId == u;
      assert k in LoansOf(s, u);
    }
  }

  /** A set is empty or has an element. */
  lemma EmptyOrWitness(a: set<int>)
    ensures a == {} || exists x :: x in a
  {
    if !(exists x :: x in a) {
      assert a == {};
    }
  }

  lemma Singleton(a: set<int>)
    requires |a| == 1
    ensures exists x :: a == {x}
  {
    EmptyOrWitness(a);
    var x :| x in a;
    assert |a - {x}| == 0;
    assert a - {x} == {};
    assert a == {x};
  }

  /** `findByIdentificacionUsuario`: the one loan of user `u`, nothing when
      `u` has none, and a failure when the single-result query matches
      several rows. */
  function FindByUser(s: LoanStore, u: string): (r: Result<Option<Loan>, Error>)
    ensures r == Success(None) <==> CountByUser(s, u) == 0
    ensures r.Failure? <==> CountByUser(s, u) > 1
    ensures r.Failure? ==> r.error == NonUniqueResult(u)
    ensures r.Success? && r.value.Some? ==> r.value.value.userId == u && r.value.value in s.loans.Values
  {
    var ks := LoansOf(s, u);
    if |ks| == 0 then Success(None)
    else if |ks| > 1 then Failure(NonUniqueResult(u))
    else
      Singleton(ks);
      var k :| k in ks;
      Success(Some(s.loans[k]))
  }

  /** `save`: the loan's book must be in the catalog (the stored loan links the
      catalog's entry for that ISBN); a loan whose id names a stored record
      replaces that record, and any other loan is stored under a fresh id. */
  function Save(s: LoanStore, catalog: Catalog.Catalog, loan: Loan): (r: Result<(LoanStore, Loan), Error>)
    requires Valid(s)
    ensures r.Failure? <==> loan.book.isbn !in catalog.books
    ensures r.Failure? ==> r.error == BookNotInCatalog(loan.book.isbn)
    ensures r.Success? ==>
      var (s', saved) := r.value;
      && Valid(s')
      && saved.id.Some?
      && saved == loan.(id := saved.id, book := catalog.books[loan.book.isbn])
      && s'.loans == s.loans[saved.id.value := saved]
      && (loan.id.Some? && loan.id.value in s.loans ==> saved.id == loan.id)
      && (loan.id.None? ==> saved.id.value !in s.loans)
      && (loan.id.Some? && loan.id.value !in s.loans ==> saved.id.value !in s.loans)
  {
    if loan.book.isbn !in catalog.books then
      Failure(BookNotInCatalog(loan.book.isbn))
    else
      var book := catalog.books[loan.book.isbn];
      if loan.id.Some? && loan.id.value in s.loans then
        var saved := loan.(book := book);
        Success((LoanStore(s.loans[loan.id.value := saved], s.nextId), saved))
      else
        var saved := loan.(id := Some(s.nextId), book := book);
        Success((LoanStore(s.loans[s.nextId := saved], s.nextId + 1), saved))
  }

  /** Saving a new loan raises its user's count by one and leaves every other
      user's count alone. */
  lemma SaveNewCounts(s: LoanStore, catalog: Catalog.Catalog, loan: Loan, u: string)
    requires Valid(s) && loan.id.None?
    requires Save(s, catalog, loan).Success?
    ensures CountByUser(Save(s, catalog, loan).value.0, u)
         == CountByUser(s, u) + (if loan.userId == u then 1 else 0)
  {
    var (s', saved) := Save(s, catalog, loan).value;
    var k := saved.id.value;
    if loan.userId == u {
      assert LoansOf(s', u) == LoansOf(s, u) + {k};
    } else {
      assert LoansOf(s', u) == LoansOf(s, u);
    }
  }

  /** A loan fresh from `Prestamo.crear` is never an update: when its book is
      catalogued, saving it adds a record under a new id, dated as created. */
  lemma SaveCreatedLoan(s: LoanStore, catalog: Catalog.Catalog, userId: string, t: UserTypes.UserType,
                        book: Book, dueDate: Day, today: Day)
    requires Valid(s) && book.isbn in catalog.books
    ensures var r := Save(s, catalog, CreateLoan(userId, t, book, dueDate, today));
            && r.Success?
            && r.value.1.id.value !in s.loans
            && |r.value.0.loans| == |s.loans| + 1
            && r.value.1.loanDate == today && r.value.1.dueDate == dueDate
            && r.value.1.userId == userId && r.value.1.userType == t
  {
    var r := Save(s, catalog, CreateLoan(userId, t, book, dueDate, today));
    var k := r.value.1.id.value;
    assert r.value.0.loans.Keys == s.loans.Keys + {k};
  }

  /** What `save` stored is what `findById` returns for the assigned id. */
  lemma SaveThenFind(s: LoanStore, catalog: Catalog.Catalog, loan: Loan)
    requires Valid(s)
    requires Save(s, catalog, loan).Success?
    ensures var (s', saved) := Save(s, catalog, loan).value;
            FindById(s', saved.id.value) == Some(saved)
  {
  }
}

=== FILE: QueryLoan.dfy ===
/** The loan query use case (`ConsultarPrestamoUseCaseImpl.ejecutar`): a
    read-only projection of one stored loan and its book. */
module QueryLoan {
  import opened Results
  import opened Calendar
  import opened UserTypes
  import opened Domain
  import opened DateFormat
  import LS = LoanStore
  import LendBook
  import Catalog

  /** The consolidated answer for one loan. */
  datatype LoanView = LoanView(
    id: Option<int>,
    isbn: string,
    title: string,
    dueDate: string,
    userId: string,
    userTypeCode: int)

  /** `ejecutar`: a missing id fails naming that id; otherwise the loan's id,
      its book's ISBN and title, its due date as `dd/MM/yyyy`, its user and the
      code of its category, which is always one of 1, 2 and 3. */
  function Consult(s: LS.LoanStore, id: int): (r: Result<LoanView, Error>)
    requires LS.Valid(s)
    ensures id !in s.loans <==> r == Failure(LoanNotFound(id))
    ensures r.Success? <==> id in s.loans
    ensures r.Success? ==>
      && r.value.id == Some(id)
      && r.value.isbn == s.loans[id].book.isbn
      && r.value.title == s.loans[id].book.title
      && r.value.dueDate == FormatDay(s.loans[id].dueDate)
      && r.value.userId == s.loans[id].userId
      && FromCode(Some(r.value.userTypeCode)) == Success(s.loans[id].userType)
  {
    match LS.FindById(s, id)
    case None => Failure(LoanNotFound(id))
    case Some(loan) =>
      CodeRoundTrip(loan.userType);
      Success(LoanView(
        loan.id, loan.book.isbn, loan.book.title, FormatDay(loan.dueDate),
        loan.userId, Code(loan.userType)))
  }

  /** Querying the loan a successful request just created echoes that
      request: same id, same due-date text, the requested ISBN, user and
      category code, and the catalog's title for that ISBN. */
  lemma LendThenConsult(s: LS.LoanStore, catalog: Catalog.Catalog, cmd: LendBook.LendCommand, today: Day)
    requires LS.Valid(s) && Catalog.Valid(catalog)
    requires LendBook.Lend(s, catalog, cmd, today).result.Success?
    ensures var o := LendBook.Lend(s, catalog, cmd, today);
            var receipt := o.result.value;
            Consult(o.store, receipt.id)
              == Success(LoanView(Some(receipt.id), cmd.isbn, catalog.books[cmd.isbn].title,
                                  receipt.dueDate, cmd.userId, cmd.userTypeCode.value))
  {
    var o := LendBook.Lend(s, catalog, cmd, today);
    var t := FromCode(cmd.userTypeCode).value;
    CodeInjective(t, FromCode(Some(Consult(o.store, o.result.value.id).value.userTypeCode)).value);
  }
}

=== FILE: Results.dfy ===
/** Failure-carrying values shared by every module of the model: `Option`
    stands for a Java `Optional` or a nullable reference, `Result` for a
    value-or-exception return and `Outcome` for a `void` method that may throw. */
module Results {

  datatype Option<+T> = None | Some(value: T)

  datatype Result<+T, +E> = Success(value: T) | Failure(error: E)

  datatype Outcome<+E> = Pass | Fail(error: E)
}

=== FILE: UserFilter.dfy ===
/** The user-name search of the front end (`FilterUserByNamePipe.transform`,
    and the same test inside the user list): a case-insensitive substring match
    on the first name that only applies once the term has three characters. */
module UserFilter {
  import opened Results

  /** A user as the list shows it. */
  datatype User = User(id: int, firstName: string, lastName: string, email: string, avatar: string)

  /** The shortest search term that filters. */
  const MinSearchLength := 3

  /** `toLowerCase` on ASCII letters; every other character is kept. */
  function LowerChar(ch: char): char
  {
    if 'A' <= ch <= 'Z' then (ch as int + 32) as char else ch
  }

  function Lower(s: string): string
  {
    seq(|s|, i requires 0 <= i < |s| => LowerChar(s[i]))
  }

  /** `t` occurs in `s` starting at position `i`. */
  predicate OccursAt(t: string, s: string, i: int)
  {
    0 <= i <= |s| - |t| && s[i..i + |t|] == t
  }

  /** `t` occurs in `s` starting at some position. */
  ghost predicate OccursIn(t: string, s: string)
  {
    exists i :: OccursAt(t, s, i)
  }

  /** `s.includes(t)`, tried position by position from the left. */
  function Includes(s: string, t: string): bool
    decreases |s|
  {
    |t| <= |s| && (s[..|t|] == t || Includes(s[1..], t))
  }

  /** The position-by-position search finds `t` exactly when it occurs. */
  lemma {:induction false} IncludesIsOccurs(s: string, t: string)
    ensures Includes(s, t) <==> OccursIn(t, s)
    decreases |s|
  {
    if |t| <= |s| {
      if s[..|t|] == t {
        assert OccursAt(t, s, 0);
      } else {
        IncludesIsOccurs(s[1..], t);
        if OccursIn(t, s) {
          var i :| OccursAt(t, s, i);
          assert s[1..][i - 1..i - 1 + |t|] == s[i..i + |t|];
          assert OccursAt(t, s[1..], i - 1);
        }
        if OccursIn(t, s[1..]) {
          var i :| OccursAt(t, s[1..], i);
          assert s[i + 1..i + 1 + |t|] == s[1..][i..i + |t|];
          assert OccursAt(t, s, i + 1);
        }
      }
    }
  }

  /** `r` is `s` with some elements left out, order kept. */
  predicate IsSubsequence<T(==)>(r: seq<T>, s: seq<T>)
    decreases |s|
  {
    if |r| == 0 then true
    else if |s| == 0 then false
    else if r[0] == s[0] then IsSubsequence(r[1..], s[1..])
    else IsSubsequence(r, s[1..])
  }

  lemma SubsequenceOfItself<T>(s: seq<T>)
    ensures IsSubsequence(s, s)
  {
  }

  /** A subsequence of `t` stays one when an element is put in front of `t`. */
  lemma {:induction false} SubsequenceCons<T>(x: T, r: seq<T>, t: seq<T>)
    requires IsSubsequence(r, t)
    ensures IsSubsequence(r, [x] + t)
    decreases |t|, 1
  {
    assert ([x] + t)[1..] == t;
    if |r| > 0 && r[0] == x {
      SubsequenceTail(r, t);
    }
  }

  /** Dropping the first element of a subsequence leaves a subsequence. */
  lemma {:induction false} SubsequenceTail<T>(r: seq<T>, t: seq<T>)
    requires IsSubsequence(r, t) && |r| > 0
    ensures IsSubsequence(r[1..], t)
    decreases |t|, 0
  {
    if r[0] == t[0] {
      SubsequenceCons(t[0], r[1..], t[1..]);
      assert [t[0]] + t[1..] == t;
    } else {
      SubsequenceTail(r, t[1..]);
      SubsequenceCons(t[0], r[1..], t[1..]);
      assert [t[0]] + t[1..] == t;
    }
  }

  /** `Array.prototype.filter`: the elements satisfying `p`, in their order,
      each as many times as it occurs. */
  function Filter<T(==,!new)>(s: seq<T>, p: T -> bool): (r: seq<T>)
    ensures |r| <= |s|
    ensures IsSubsequence(r, s)
    ensures forall x :: x in r ==> p(x)
    ensures forall x :: multiset(r)[x] == if p(x) then multiset(s)[x] else 0
  {
    if |s| == 0 then []
    else
      var rest := Filter(s[1..], p);
      assert s == [s[0]] + s[1..];
      if p(s[0]) then [s[0]] + rest else rest
  }

  lemma FilterKeepsMatches<T(!new)>(s: seq<T>, p: T -> bool, x: T)
    requires x in s && p(x)
    ensures x in Filter(s, p)
  {
    assert multiset(s)[x] > 0;
  }

  /** The user's first name contains the term, both lower-cased. */
  predicate NameMatches(u: User, term: string)
  {
    Includes(Lower(u.firstName), Lower(term))
  }

  /** The search applied to a list: terms shorter than three characters keep
      the list as it is; longer ones keep exactly the matching users. */
  function SearchFilter(users: seq<User>, term: string): (r: seq<User>)
    ensures IsSubsequence(r, users)
    ensures |term| < MinSearchLength ==> r == users
    ensures |term| >= MinSearchLength ==>
              forall u :: u in r ==> OccursIn(Lower(term), Lower(u.firstName))
    ensures |term| >= MinSearchLength ==>
              forall u :: u in users && OccursIn(Lower(term), Lower(u.firstName)) ==> u in r
    ensures |term| >= MinSearchLength ==>
              forall u :: multiset(r)[u]
                       == if OccursIn(Lower(term), Lower(u.firstName)) then multiset(users)[u] else 0
  {
    if |term| < MinSearchLength then
      SubsequenceOfItself(users);
      users
    else
      var r := Filter(users, u => NameMatches(u, term));
      forall u | u in r
        ensures OccursIn(Lower(term), Lower(u.firstName))
      {
        IncludesIsOccurs(Lower(u.firstName), Lower(term));
      }
      forall u | u in users && OccursIn(Lower(term), Lower(u.firstName))
        ensures u in r
      {
        IncludesIsOccurs(Lower(u.firstName), Lower(term));
        FilterKeepsMatches(users, u => NameMatches(u, term), u);
      }
      forall u
        ensures multiset(r)[u]
             == if OccursIn(Lower(term), Lower(u.firstName)) then multiset(users)[u] else 0
      {
        IncludesIsOccurs(Lower(u.firstName), Lower(term));
      }
      r
  }

  /** `transform`: a missing list stays missing, a missing or short term
      returns the list unchanged, and otherwise the matching users in order. */
  function Transform(users: Option<seq<User>>, searchTerm: Option<string>): (r: Option<seq<User>>)
    ensures users.None? ==> r.None?
    ensures searchTerm.None? || |searchTerm.value| < MinSearchLength ==> r == users
    ensures users.Some? ==> r.Some? && |r.value| <= |users.value| && IsSubsequence(r.value, users.value)
    ensures users.Some? && searchTerm.Some? && |searchTerm.value| >= MinSearchLength ==>
              forall u :: u in r.value ==> OccursIn(Lower(searchTerm.value), Lower(u.firstName))
    ensures users.Some? && searchTerm.Some? && |searchTerm.value| >= MinSearchLength ==>
              forall u :: u in users.value && OccursIn(Lower(searchTerm.value), Lower(u.firstName))
                          ==> u in r.value
    ensures users.Some? && searchTerm.Some? && |searchTerm.value| >= MinSearchLength ==>
              forall u :: multiset(r.value)[u]
                       == if OccursIn(Lower(searchTerm.value), Lower(u.firstName))
                          then multiset(users.value)[u] else 0
  {
    match users
    case None => None
    case Some(us) =>
      var term := if searchTerm.Some? then searchTerm.value else "";
      Some(SearchFilter(us, term))
  }
}

=== FILE: UserList.dfy ===
/** The user list screen (`ListUsersComponent`): the merge of locally created
    users with the ones the API returned, the search, and six-per-page
    pagination. Only the pure state changes are modelled; the component's
    fields are one immutable `ListState`. */
module UserList {
  import opened UserFilter

  const ItemsPerPage := 6

  /** The widest window of page links. */
  const PageWindow := 5

  function Max(a: int, b: int): int { if a < b then b else a }
  function Min(a: int, b: int): int { if a < b then a else b }

  /** `Math.ceil(n / 6)`: the fewest pages of six that hold `n` users. */
  function PageCount(n: nat): (k: nat)
    ensures k * ItemsPerPage >= n
    ensures k == 0 || (k - 1) * ItemsPerPage < n
  {
    (n + ItemsPerPage - 1) / ItemsPerPage
  }

  /** A `slice` position: negative positions count from the end, and every
      position is clamped to the array. */
  function SlicePosition(pos: int, len: nat): (k: nat)
    ensures k <= len
    ensures 0 <= pos <= len ==> k == pos
    ensures pos > len ==> k == len
  {
    if pos < 0 then Max(len + pos, 0) else Min(pos, len)
  }

  /** `Array.prototype.slice(start, end)`. */
  function JsSlice<T>(s: seq<T>, start: int, end: int): (r: seq<T>)
    ensures |r| <= |s|
  {
    var a := SlicePosition(start, |s|);
    var b := SlicePosition(end, |s|);
    if b <= a then [] else s[a..b]
  }

  /** The users shown on page `page` (counted from 1) of `users`. */
  function PageOf(users: seq<User>, page: int): seq<User>
  {
    var start := (page - 1) * ItemsPerPage;
    JsSlice(users, start, start + ItemsPerPage)
  }

  /** A page holds at most six users, namely the ones at its positions of the
      list; it is full unless it is the last one. */
  lemma {:induction false} PageContents(users: seq<User>, page: int)
    requires page >= 1
    ensures |PageOf(users, page)| <= ItemsPerPage
    ensures |PageOf(users, page)|
         == if |users| <= (page - 1) * ItemsPerPage then 0
            else Min(ItemsPerPage, |users| - (page - 1) * ItemsPerPage)
    ensures forall i :: 0 <= i < |PageOf(users, page)| ==>
              PageOf(users, page)[i] == users[(page - 1) * ItemsPerPage + i]
  {
    var start := (page - 1) * ItemsPerPage;
    assert start >= 0;
  }

  /** Every user of the list is on exactly the page its position says, and
      that page exists. */
  lemma {:induction false} EveryUserHasAPage(users: seq<User>, j: int)
    requires 0 <= j < |users|
    ensures 1 <= j / ItemsPerPage + 1 <= PageCount(|users|)
    ensures |PageOf(users, j / ItemsPerPage + 1)| > j % ItemsPerPage
    ensures PageOf(users, j / ItemsPerPage + 1)[j % ItemsPerPage] == users[j]
  {
    var page := j / ItemsPerPage + 1;
    assert (page - 1) * ItemsPerPage + j % ItemsPerPage == j;
    PageContents(users, page);
  }

  /** Every user on a page is in the list it was cut from. */
  lemma PageMembers(users: seq<User>, page: int)
    ensures forall u :: u in PageOf(users, page) ==> u in users
  {
    forall u | u in PageOf(users, page)
      ensures u in users
    {
      var i :| 0 <= i < |PageOf(users, page)| && PageOf(users, page)[i] == u;
      var start := (page - 1) * ItemsPerPage;
      assert u == users[SlicePosition(start, |users|) + i];
    }
  }

  /** The component's fields that these operations read and write. */
  datatype ListState = ListState(
    allUsers: seq<User>,
    searchTerm: string,
    currentPage: int,
    totalPages: int,
    listUser: seq<User>)

  /** The users the search lets through, in list order. */
  function Visible(st: ListState): seq<User>
  {
    SearchFilter(st.allUsers, st.searchTerm)
  }

  /** What the screen shows agrees with the data: the page count fits the
      searched list, the current page is one of its pages (page 1 when the
      list is empty), and the shown users are that page. */
  predicate Consistent(st: ListState)
  {
    var visible := Visible(st);
    && st.totalPages == PageCount(|visible|)
    && 1 <= st.currentPage <= Max(1, st.totalPages)
    && st.listUser == PageOf(visible, st.currentPage)
  }

  /** `showPage(page)`: page `page` of the searched list, and the page count
      of that list. Any page that exists gives a consistent screen. */
  function ShowPage(st: ListState, page: int): (r: ListState)
    ensures r.allUsers == st.allUsers && r.searchTerm == st.searchTerm
    ensures r.currentPage == page
    ensures 1 <= page <= Max(1, PageCount(|Visible(st)|)) ==> Consistent(r)
    ensures page >= 1 ==> |r.listUser| <= ItemsPerPage
    ensures forall u :: u in r.listUser ==> u in st.allUsers
  {
    var visible := Visible(st);
    var r := st.(currentPage := page,
                 listUser := PageOf(visible, page),
                 totalPages := PageCount(|visible|));
    SearchFiltered(st.allUsers, st.searchTerm);
    PageMembers(visible, page);
    if page >= 1 then PageContents(visible, page); r else r
  }

  /** Everything the search keeps comes from the list it searched. */
  lemma SearchFiltered(users: seq<User>, term: string)
    ensures forall u :: u in SearchFilter(users, term) ==> u in users
  {
    SubsequenceMembers(SearchFilter(users, term), users);
  }

  lemma {:induction false} SubsequenceMembers<T>(r: seq<T>, s: seq<T>)
    requires IsSubsequence(r, s)
    ensures forall x :: x in r ==> x in s
    decreases |s|
  {
    if |r| > 0 {
      if r[0] == s[0] {
        SubsequenceMembers(r[1..], s[1..]);
        assert r == [r[0]] + r[1..];
      } else {
        SubsequenceMembers(r, s[1..]);
      }
    }
  }

  /** `nextPage`: moves on one page when there is a later page, and otherwise
      changes nothing. */
  function NextPage(st: ListState): (r: ListState)
    ensures st.currentPage < st.totalPages ==> r.currentPage == st.currentPage + 1
    ensures st.currentPage >= st.totalPages ==> r == st
    ensures r.allUsers == st.allUsers && r.searchTerm == st.searchTerm
    ensures Consistent(st) ==> Consistent(r)
  {
    if st.currentPage < st.totalPages then ShowPage(st, st.currentPage + 1) else st
  }

  /** `previousPage`: moves back one page unless on the first page. */
  function PreviousPage(st: ListState): (r: ListState)
    ensures st.currentPage > 1 ==> r.currentPage == st.currentPage - 1
    ensures st.currentPage <= 1 ==> r == st
    ensures r.allUsers == st.allUsers && r.searchTerm == st.searchTerm
    ensures Consistent(st) ==> Consistent(r)
  {
    if st.currentPage > 1 then ShowPage(st, st.currentPage - 1) else st
  }

  /** Going forward a page and back again restores the screen. */
  lemma NextThenPrevious(st: ListState)
    requires Consistent(st) && st.currentPage < st.totalPages
    ensures PreviousPage(NextPage(st)) == st
  {
  }

  /** `getPageNumbers`: the page links, a run of consecutive pages from two
      before to two after the current one, cut to the existing pages. */
  function PageNumbers(st: ListState): (r: seq<int>)
    ensures |r| <= PageWindow
    ensures forall i :: 0 <= i < |r| ==> r[i] == Max(1, st.currentPage - 2) + i
    ensures forall k :: k in r <==> Max(1, st.currentPage - 2) <= k <= Min(st.totalPages, st.currentPage + 2)
    ensures Consistent(st) ==> forall k :: k in r ==> 1 <= k <= st.totalPages
    ensures Consistent(st) && st.totalPages >= 1 ==> st.currentPage in r
  {
    var start := Max(1, st.currentPage - 2);
    var end := Min(st.totalPages, st.currentPage + 2);
    var r := seq(Max(0, end - start + 1), i => start + i);
    InRange(start, end, r);
    r
  }

  lemma InRange(start: int, end: int, r: seq<int>)
    requires |r| == Max(0, end - start + 1)
    requires forall i :: 0 <= i < |r| ==> r[i] == start + i
    ensures forall k :: k in r <==> start <= k <= end
  {
    forall k | start <= k <= end
      ensures k in r
    {
      assert r[k - start] == k;
    }
  }

  /** `filterAndPaginateUsers`: recomputes the page count for the current
      search, keeps the current page when it still exists and otherwise moves
      to the last page (page 1 when nothing matches). */
  function FilterAndPaginate(st: ListState): (r: ListState)
    ensures r.allUsers == st.allUsers && r.searchTerm == st.searchTerm
    ensures st.currentPage >= 1 ==> Consistent(r)
    ensures st.currentPage <= Max(1, PageCount(|Visible(st)|)) ==> r.currentPage == st.currentPage
    ensures st.currentPage > Max(1, PageCount(|Visible(st)|)) ==>
              r.currentPage == Max(1, PageCount(|Visible(st)|))
  {
    var visible := Visible(st);
    var total := PageCount(|visible|);
    var page := Min(st.currentPage, if total == 0 then 1 else total);
    st.(totalPages := total, currentPage := page, listUser := PageOf(visible, page))
  }

  /** Typing into the search box: the new term applies at once. */
  function SearchInput(st: ListState, term: string): (r: ListState)
    ensures r.searchTerm == term && r.allUsers == st.allUsers
    ensures st.currentPage >= 1 ==> Consistent(r)
    ensures forall u :: u in r.listUser ==> u in st.allUsers
  {
    var r := FilterAndPaginate(st.(searchTerm := term));
    SearchFiltered(st.allUsers, term);
    PageMembers(Visible(r), r.currentPage);
    r
  }

  /** `deleteUser` after the server confirmed: every user with that id leaves
      the list, all other users stay in order, and the pages are recomputed. */
  function DeleteSucceeded(st: ListState, id: int): (r: ListState)
    ensures IsSubsequence(r.allUsers, st.allUsers)
    ensures forall u :: u in r.allUsers <==> u in st.allUsers && u.id != id
    ensures forall u :: multiset(r.allUsers)[u] == if u.id != id then multiset(st.allUsers)[u] else 0
    ensures r.searchTerm == st.searchTerm
    ensures st.currentPage >= 1 ==> Consistent(r)
  {
    var rest := Filter(st.allUsers, (u: User) => u.id != id);
    forall u | u in st.allUsers && u.id != id
      ensures u in rest
    {
      FilterKeepsMatches(st.allUsers, (v: User) => v.id != id, u);
    }
    SubsequenceMembers(rest, st.allUsers);
    FilterAndPaginate(st.(allUsers := rest))
  }

  /** `findIndex` by id: the first position holding a user with that id, or
      -1 when there is none. */
  function FindIndex(s: seq<User>, id: int): (k: int)
    ensures -1 <= k < |s|
    ensures k >= 0 ==> s[k].id == id && forall j :: 0 <= j < k ==> s[j].id != id
    ensures k == -1 ==> forall j :: 0 <= j < |s| ==> s[j].id != id
  {
    if |s| == 0 then -1
    else if s[0].id == id then 0
    else
      var k := FindIndex(s[1..], id);
      if k < 0 then -1 else k + 1
  }

  /** The users of `self` from position `i` on that are the first with their
      id in all of `self`, in order. */
  function FirstOccurrences(self: seq<User>, i: nat): (r: seq<User>)
    requires i <= |self|
    ensures forall a, b :: 0 <= a < b < |r| ==> r[a].id != r[b].id
    ensures forall y :: y in r ==> i <= FindIndex(self, y.id) && self[FindIndex(self, y.id)] == y
    ensures forall j :: i <= j < |self| && FindIndex(self, self[j].id) == j ==> self[j] in r
    ensures IsSubsequence(r, self[i..])
    decreases |self| - i
  {
    if i == |self| then []
    else
      var rest := FirstOccurrences(self, i + 1);
      assert self[i..] == [self[i]] + self[i + 1..];
      if FindIndex(self, self[i].id) == i then
        var r := [self[i]] + rest;
        assert forall b :: 1 <= b < |r| ==> r[b] in rest;
        assert r[1..] == rest;
        r
      else
        SubsequenceCons(self[i], rest, self[i + 1..]);
        rest
  }

  /** The users of `r` appear in the order of their first positions in `self`. */
  predicate OrderedByFirst(self: seq<User>, r: seq<User>)
  {
    forall a, b :: 0 <= a < b < |r| ==> FindIndex(self, r[a].id) < FindIndex(self, r[b].id)
  }

  lemma OrderedCons(self: seq<User>, u: User, rest: seq<User>)
    requires OrderedByFirst(self, rest)
    requires forall y :: y in rest ==> FindIndex(self, u.id) < FindIndex(self, y.id)
    ensures OrderedByFirst(self, [u] + rest)
  {
    var r := [u] + rest;
    forall a, b | 0 <= a < b < |r|
      ensures FindIndex(self, r[a].id) < FindIndex(self, r[b].id)
    {
      assert r[b] == rest[b - 1];
      if a > 0 {
        assert r[a] == rest[a - 1];
      }
    }
  }

  /** Everything kept from position `i + 1` on first occurs after `i`. */
  lemma KeptAfter(self: seq<User>, i: nat)
    requires i < |self|
    ensures forall y :: y in FirstOccurrences(self, i + 1) ==> i < FindIndex(self, y.id)
  {
  }

  /** One step of `FirstOccurrences`: position `i` is kept when it is the first
      with its id. */
  lemma FirstOccurrencesStep(self: seq<User>, i: nat)
    requires i < |self|
    ensures FindIndex(self, self[i].id) == i ==>
              FirstOccurrences(self, i) == [self[i]] + FirstOccurrences(self, i + 1)
    ensures FindIndex(self, self[i].id) != i ==>
              FirstOccurrences(self, i) == FirstOccurrences(self, i + 1)
  {
  }

  /** Putting position `i` in front keeps the order. */
  lemma OrderedStep(self: seq<User>, i: nat)
    requires i < |self|
    requires OrderedByFirst(self, FirstOccurrences(self, i + 1))
    ensures OrderedByFirst(self, FirstOccurrences(self, i))
  {
    FirstOccurrencesStep(self, i);
    if FindIndex(self, self[i].id) == i {
      KeptAfter(self, i);
      OrderedCons(self, self[i], FirstOccurrences(self, i + 1));
    }
  }

  /** The kept users appear in the order of their first positions in `self`. */
  lemma {:induction false} FirstOccurrencesOrdered(self: seq<User>, i: nat)
    requires i <= |self|
    ensures OrderedByFirst(self, FirstOccurrences(self, i))
    decreases |self| - i
  {
    if i < |self| {
      FirstOccurrencesOrdered(self, i + 1);
      OrderedStep(self, i);
    }
  }

  /** `mergeLocalAndApiUsers`: locally created users first, then the API's,
      keeping only the first user with each id. */
  function Merge(local: seq<User>, api: seq<User>): (r: seq<User>)
    ensures forall a, b :: 0 <= a < b < |r| ==> r[a].id != r[b].id
    ensures forall u :: u in local + api ==> exists v :: v in r && v.id == u.id
    ensures forall v :: v in r ==> v in local + api
    ensures forall v :: v in r ==> (local + api)[FindIndex(local + api, v.id)] == v
    ensures IsSubsequence(r, local + api)
    ensures forall a, b :: 0 <= a < b < |r| ==>
              FindIndex(local + api, r[a].id) < FindIndex(local + api, r[b].id)
  {
    var all := local + api;
    var r := FirstOccurrences(all, 0);
    FirstOccurrencesOrdered(all, 0);
    assert all[0..] == all;
    forall u | u in all
      ensures exists v :: v in r && v.id == u.id
    {
      var k := FindIndex(all, u.id);
      assert k >= 0;
      assert all[k] in r;
    }
    r
  }

  /** A user created locally wins over an API user with the same id: the merged
      list holds the first local user with that id. */
  lemma MergePrefersLocal(local: seq<User>, api: seq<User>, u: User)
    requires u in local
    ensures FindIndex(local, u.id) >= 0
    ensures local[FindIndex(local, u.id)] in Merge(local, api)
    ensures forall v :: v in Merge(local, api) && v.id == u.id ==> v == local[FindIndex(local, u.id)]
  {
    var all := local + api;
    var k := FindIndex(local, u.id);
    assert FindIndex(all, u.id) == k by {
      assert all[k].id == u.id;
    }
    assert all[k] == local[k];
  }

  /** `finalizeUsers`: the merged list, shown from its first page with the
      search still applied. */
  function FinalizeUsers(st: ListState, local: seq<User>, api: seq<User>): (r: ListState)
    ensures r.allUsers == Merge(local, api)
    ensures r.currentPage == 1
    ensures Consistent(r)
  {
    var all := Merge(local, api);
    ShowPage(st.(allUsers := all, totalPages := PageCount(|all|)), 1)
  }
}

=== FILE: UserTypes.dfy ===
/** The closed registry of user categories (`TipoUsuario`): each category has
    a numeric code used on the wire and in storage, and a loan length in
    business days. */
module UserTypes {
  import opened Results

  datatype UserType = Afiliado | Empleado | Invitado

  /** Why `FromCode` rejected its input; both become one domain error later. */
  datatype DecodeError = NullCode | UnknownCode(code: int)

  /** `getValor`: the numeric code of a category. */
  function Code(t: UserType): int
  {
    match t
    case Afiliado => 1
    case Empleado => 2
    case Invitado => 3
  }

  /** `getDiasPrestamo`: how many business days a loan of this category lasts. */
  function LoanDays(t: UserType): int
  {
    match t
    case Afiliado => 10
    case Empleado => 8
    case Invitado => 7
  }

  /** `esInvitado`: only guests are subject to the one-loan cap. */
  predicate IsGuest(t: UserType)
  {
    t == Invitado
  }

  /** The codes `FromCode` accepts. */
  predicate IsValidCode(v: int)
  {
    v == 1 || v == 2 || v == 3
  }

  /** `fromValor`: a null code and every code that is not one of the three
      fixed values are rejected; otherwise the category with that code. */
  function FromCode(v: Option<int>): (r: Result<UserType, DecodeError>)
    ensures v.None? ==> r == Failure(NullCode)
    ensures v.Some? && !IsValidCode(v.value) ==> r == Failure(UnknownCode(v.value))
    ensures r.Success? <==> v.Some? && IsValidCode(v.value)
    ensures r.Success? ==> Code(r.value) == v.value
  {
    match v
    case None => Failure(NullCode)
    case Some(c) =>
      if c == Code(Afiliado) then Success(Afiliado)
      else if c == Code(Empleado) then Success(Empleado)
      else if c == Code(Invitado) then Success(Invitado)
      else Failure(UnknownCode(c))
  }

  /** Decoding the code of any category gives that category back, so codes are
      injective. */
  lemma CodeRoundTrip(t: UserType)
    ensures FromCode(Some(Code(t))) == Success(t)
    ensures IsValidCode(Code(t))
  {
  }

  lemma CodeInjective(t: UserType, u: UserType)
    ensures Code(t) == Code(u) <==> t == u
  {
    CodeRoundTrip(t);
    CodeRoundTrip(u);
  }

  /** The table: 1, 2 and 3 decode to the three categories, whose loans last
      10, 8 and 7 business days; every loan length is positive. */
  lemma RegistryTable()
    ensures FromCode(Some(1)) == Success(Afiliado) && LoanDays(Afiliado) == 10
    ensures FromCode(Some(2)) == Success(Empleado) && LoanDays(Empleado) == 8
    ensures FromCode(Some(3)) == Success(Invitado) && LoanDays(Invitado) == 7
    ensures forall t: UserType :: 7 <= LoanDays(t) <= 10
  {
  }

  /** Exactly one category is a guest: the one with code 3. */
  lemma GuestIsCodeThree(t: UserType)
    ensures IsGuest(t) <==> Code(t) == 3
  {
  }
}

=== FILE: Validator.dfy ===
/** The loan validator (`ValidadorPrestamo`): the category code must be one of
    the three known codes, and a guest may hold at most one stored loan. */
module Validator {
  import opened Results
  import opened UserTypes
  import opened Domain
  import LS = LoanStore

  /** `validarTipoUsuario`: passes exactly for codes 1, 2 and 3; every decoder
      failure, a null code included, is reported as `UserTypeNotAllowed`. */
  function ValidateUserType(code: Option<int>): (r: Outcome<Error>)
    ensures r.Pass? <==> code.Some? && IsValidCode(code.value)
    ensures r.Fail? ==> r.error == UserTypeNotAllowed
  {
    match FromCode(code)
    case Success(_) => Pass
    case Failure(_) => Fail(UserTypeNotAllowed)
  }

  /** `validarUsuarioInvitado`: a guest fails when the store already holds a
      loan of theirs; members and employees always pass. */
  function ValidateGuest(s: LS.LoanStore, userId: string, t: UserType): (r: Outcome<Error>)
    ensures !IsGuest(t) ==> r.Pass?
    ensures IsGuest(t) ==> (r.Pass? <==> LS.CountByUser(s, userId) == 0)
    ensures r.Fail? ==> r.error == UserAlreadyHasLoan(userId)
  {
    if IsGuest(t) then
      var activeLoans := LS.CountByUser(s, userId);
      if activeLoans > 0 then Fail(UserAlreadyHasLoan(userId)) else Pass
    else Pass
  }

  /** For members and employees the outcome does not depend on the store at
      all: their loans are never counted. */
  lemma NonGuestIgnoresStore(s1: LS.LoanStore, s2: LS.LoanStore, userId: string, t: UserType)
    requires !IsGuest(t)
    ensures ValidateGuest(s1, userId, t) == ValidateGuest(s2, userId, t) == Pass
  {
  }
}
